=== FILE: README.md ===
# Interest-rate calculator: a Dafny model of its core

The calculator keeps two persisted sources of truth, a principal `amount` and a
yearly growth factor `yearly` (1.07 means +7 % a year). Eleven editable fields
derive from them: the amount itself, the growth factor over a day, a month, a
year, five and ten years (shown as percentages), and the gain the amount earns
over each of those periods. Every field accepts an arithmetic expression. While a
field has focus it shows the raw text typed; otherwise it shows its formatted
canonical value. A separate rate table can rewrite currency codes in an
expression into parenthesised exchange rates.

The model is functional. Immutable datatypes hold the state, and pure functions
over `seq<char>` and maps implement the operations. The expression evaluator
(`evalexpr`), `f64::powf`, and f64's `to_string` and `parse` are function-valued
parameters, so every property holds for every evaluator, power function and
formatter.

| module | file | models |
|---|---|---|
| `Wrappers` | wrappers.dfy | Rust's `Option` and `Result` |
| `StrReplace` | str_replace.dfy | Rust's `str::replace`: left-to-right, non-overlapping; the empty pattern matches at every character boundary |
| `Rates` | rates.dfy | `Rates::replace`: a fold of `str::replace` over the rate table, skipping the home code "00" |
| `Expr` | expr.dfy | `eval_expr` and Rust's `trim` / `char::is_whitespace` |
| `Percent` | percent.dfy | the `Percent` conversions |
| `Controlled` | controlled.dfy | `ControlledBase`: the text shown, the keystroke handler and the error marker |
| `LocalStorage` | local_storage.dfy | `create_local_storage`: load-or-default and the write-through setter |
| `App` | app.dfy | `App`: the rate and gain signals, their setters, the field wiring and page start |

The rate table is a Rust `HashMap`, whose iteration order is unspecified. It is
modelled as the sequence of its entries in iteration order, and every `Rates`
lemma holds for every such sequence. The order does matter when one code
contains another: `Rates.OrderMatters` shows that "USD" and "USDC", visited in
the two possible orders, turn "USDC" into different texts. Substitution also
re-enters the literals it has inserted: `Rates.ReentersLiteral` shows a later
code "5" rewriting the "(1.5)" an earlier "USD" entry produced.

## Model

| member | source | states |
|---|---|---|
| `Rates.Replace` | src/fetch_rates.rs:22-29 | An empty table, or one whose every entry has the home code "00", leaves the expression unchanged |
| `Rates.EligibleMembers` | src/fetch_rates.rs:25 | The entries that reach the fold are exactly the table's entries whose code is not "00" |
| `Rates.HomeEntryIgnored` | src/fetch_rates.rs:25 | A "00" entry anywhere in the iteration order, with any rate, changes nothing: the result equals the one for the table without it |
| `Rates.SingleEntry` | src/fetch_rates.rs:26-27 | A one-entry table `{k: v}` gives `expr.replace(k, "(v)")` when `k` is not "00", and `expr` itself when it is |
| `Rates.UnchangedWhenNoCodeOccurs` | src/fetch_rates.rs:26-27 | If no code other than "00" occurs in the expression, nothing is replaced, so no replacement introduces a code, and the result is the expression itself |
| `Rates.FoldAppend` | src/fetch_rates.rs:26-28 | Folding over entries `a ++ b` is folding over `b`, starting from the result of folding over `a` |
| `Rates.ReplaceSnoc` | src/fetch_rates.rs:26-28 | The result is a left fold: the last entry's replacement is applied to what the earlier entries produced, and a "00" entry adds no step |
| `Rates.ReentersLiteral` | src/fetch_rates.rs:26-28 | Each step works on the previous step's output, so a later code that occurs in an earlier entry's rate text rewrites the inserted literal: `USD: 1.5` then `5: 2` turn "USD" into "(1.(2))" |
| `Rates.OrderMatters` | src/fetch_rates.rs:23-28 | The same entries `USD: 1` and `USDC: 2` in the two iteration orders turn "USDC" into "(1)C" and into "(2)" |
| `StrReplace.ReplaceAllSegments` | src/fetch_rates.rs:27 | The output of one replacement is the original text cut at the matches into pieces, none of which contains the code, rejoined with the replacement between them. Outside the inserted text no occurrence of the code survives, and putting the code back gives the original. The cuts are the leftmost matches: no match starts inside a piece the code follows, so the decomposition is the one a left-to-right scan finds |
| `StrReplace.ReplaceAllUnchanged` | src/fetch_rates.rs:27 | Replacing a non-empty code leaves the text unchanged if and only if the code does not occur in it or is replaced by itself |
| `StrReplace.ReplaceAbsent` | src/fetch_rates.rs:27 | A text in which the code does not occur comes back unchanged, for any code |
| `StrReplace.ReplaceBySelf` | src/fetch_rates.rs:27 | Replacing any code, empty or not, by itself is the identity |
| `StrReplace.Replace` | src/fetch_rates.rs:27 | `str::replace`: a non-empty code cuts the text at the matches and rejoins the pieces with the replacement; the empty code grows the text by `(n + 1) * len(rep)` (see `StrReplace.ReplaceAllSegments`, `StrReplace.ReplaceEmptyPlacement`) |
| `StrReplace.ReplaceEmpty` | src/fetch_rates.rs:27 | With an empty code (a `HashMap` key may be ""), the length grows by `(n + 1) * len(rep)`, and an empty replacement changes nothing |
| `StrReplace.ReplaceEmptyPlacement` | src/fetch_rates.rs:27 | With an empty code, a copy of the replacement sits at each of the `n + 1` character boundaries: block `i` is a copy followed by character `i`, and the text ends with a copy |
| `Expr.TrimStart` | src/main.rs:27 | The result is the suffix left after every leading whitespace character, and only those, is dropped |
| `Expr.TrimEnd` | src/main.rs:27 | The result is the prefix left after every trailing whitespace character, and only those, is dropped |
| `Expr.Trim` | src/main.rs:27 | Trimming gives the empty string exactly when every character is whitespace |
| `Expr.EvalExpr` | src/main.rs:26-34 | Blank text (empty or all whitespace) gives `Ok(0.0)`. Any other text gives exactly the evaluator's number, or an error when the evaluator fails |
| `Percent.ToPercent` | src/main.rs:14-18 | The percentage of a growth factor is the one that `FromPercent` maps back to that factor |
| `Percent.FromPercent` | src/main.rs:20-24 | The growth factor of a percentage is the one that `ToPercent` maps back to that percentage |
| `Percent.RoundTrips` | src/main.rs:14-24 | `FromPercent(ToPercent(x)) == x` and `ToPercent(FromPercent(p)) == p` exactly over the reals |
| `Controlled.TextValue` | src/main.rs:56-69 | A focused field shows its raw buffer. An unfocused one shows the formatted canonical value, converted to a percentage for percentage fields |
| `Controlled.OnInput` | src/main.rs:75-84 | A keystroke sets the buffer to the typed text. The value it writes reads, in the field's units, as the evaluated number, or as 0 when evaluation fails |
| `Controlled.ShowsError` | src/main.rs:86-90 | The `ERROR` marker is up exactly when the displayed text is not blank and the evaluator rejects it (see `Controlled.KeystrokeShown`) |
| `Controlled.KeystrokeShown` | src/main.rs:74-90 | After a keystroke the focused field shows the typed text. The error marker appears exactly when that text fails to evaluate, which blank text never does |
| `Controlled.UnfocusedIgnoresBuffer` | src/main.rs:56-90 | Unfocused, two fields of the same kind with different buffers show the same text and the same error marker |
| `Controlled.FailedEditShowsZero` | src/main.rs:79-83 | A keystroke that fails to evaluate writes 0.0, or 1.0 (0 %) in a percentage field, instead of keeping the old value. Unfocused, the field shows zero |
| `LocalStorage.Create` | src/local_storage.rs:23-31 | An absent key gives the default. A present key gives its parsed value. A present value that does not parse is fatal, not replaced by the default |
| `LocalStorage.Write` | src/local_storage.rs:33-41 | A write sets the in-memory value and stores its text under the same key. The store's keys become the old keys plus that key, and every other key keeps its text |
| `LocalStorage.WriteThenCreate` | src/local_storage.rs:23-41 | Loading after a write gives back the written value, provided the value's text parses back to it |
| `LocalStorage.ParseFailure` | src/local_storage.rs:24-27 | The panic message carries the stored text in the value slot and the key in the key slot |
| `LocalStorage.ParseFailureSwapped` | src/local_storage.rs:24-27 | The message as built reads "... value `amount' for key: `abc'" for key "amount" holding "abc", which is not the message with the slots filled correctly |
| `App.Exponent` | src/main.rs:145-155 | Each period's exponent relative to a year (1/365, 1/12, 1, 5, 10) is positive |
| `App.Rate` | src/main.rs:145-155 | The yearly rate signal is `yearly` itself. Every other period's rate is `yearly` raised to that period's exponent |
| `App.NewYearly` | src/main.rs:146-155 | The yearly setter writes the typed factor. Every other rate setter raises it to the reciprocal of the exponent that period's getter uses |
| `App.Gain` | src/main.rs:157-173 | A period's gain is zero exactly when the period factor is 1 or the amount is 0, and for a positive amount it is positive exactly when the factor exceeds 1 (inverted by the setter: `App.NewAmountInvertsGain`, `App.GainInvertsNewAmount`) |
| `App.GainInvertsNewAmount` | src/main.rs:157-175 | Unless the period factor is 1, feeding the guarded gain setter the gain an amount earns gives back that amount (the other direction of `App.NewAmountInvertsGain`) |
| `App.ZeroRateGainIsNonFinite` | src/main.rs:165-167 | As written, at a yearly factor of 1 (0 %) any edit of "Yearly amount" divides by zero and yields a non-finite amount |
| `App.NewAmount` | src/main.rs:157-175 | The guarded gain setter writes nothing exactly when the period factor is 1. Otherwise it writes the same finite amount as the unguarded code |
| `App.NewAmountInvertsGain` | src/main.rs:157-175 | The amount a gain setter writes earns exactly the typed gain over that period |
| `App.SetValue` | src/main.rs:145-179 | The amount field writes only the amount. Rate fields write only `yearly`. Gain fields write only the amount. On the guarded page, a gain field writes nothing at factor 1 (the source writes a non-finite amount there; see Findings). Each written source is persisted under its own key, and no buffer changes |
| `App.Display` | src/main.rs:179-200 | Each field shows its own buffer while focused ("" before the first keystroke). Unfocused, a rate field shows its rate as a percentage and every other field its value |
| `App.Input` | src/main.rs:75-84 | A keystroke sets the edited field's buffer to the text and changes no other buffer |
| `App.Start` | src/main.rs:142-143 | On an empty store the page starts at amount 100 and yearly 1.07. A stored value that does not parse stops the page. The page starts exactly when the stored `amount` and `yearly` values parse (other keys are never read), and then each source is the parsed stored value, or its default when absent |
| `App.InputShowsTyped` | src/main.rs:56-90 | After a keystroke the focused field shows the typed text. Its error marker is up exactly when that text fails to evaluate. Every other field keeps its buffer |
| `App.EditAmount` | src/main.rs:157-179 | Editing the amount keeps `yearly`, and so every rate. It sets the amount to the typed number and persists it. Every gain becomes what the new amount earns at the unchanged factor |
| `App.EditRate` | src/main.rs:145-155 | Editing a rate keeps the amount. It writes `yearly` from the typed percentage through that period's setter and persists it. In the yearly field the new factor is exactly the typed percentage |
| `App.EditRateReadsBack` | src/main.rs:145-155 | If the typed percentage is above -100 % (a positive factor) and the power function's two exponents undo each other on positive bases, unfocused, the edited rate field shows the typed percentage |
| `App.EditGain` | src/main.rs:157-175 | Editing a gain keeps `yearly`. Unless the period factor is 1, the amount becomes the setter's value and is persisted. On the guarded page, at factor 1 neither amount nor store changes (the source writes a non-finite amount there; see Findings) |
| `App.EditGainReadsBack` | src/main.rs:157-175 | Unless the period factor is 1, the amount a gain edit writes earns exactly the typed gain, so unfocused, the edited field shows the typed gain |
| `App.FailedEditWritesZero` | src/main.rs:79-83 | A failed evaluation writes zero in the field's units: amount 0, a rate of 0 % (yearly from factor 1), or a gain of 0 |
| `App.InputKeepsStoreInSync` | src/local_storage.rs:33-41 | If the store held each source's text before a keystroke, it still does afterwards |

## Left out

- `fetch_api` and `fetch_rates` (src/fetch_rates.rs:32-61) are left out: the HTTP request, the abort controller, `on_cleanup` and the JSON decoding are asynchronous network I/O.
- `Rates::replace` is not called from src/main.rs, so `App.Input` evaluates the typed text without currency substitution. `Rates` is modelled standalone.
- `is_focused` reads the DOM's active element. Focus is a plain boolean (`Controlled.TextValue`), or the focused field's id (`App.Display`).
- Reactivity timing is not modelled. `text_value` is recomputed when a signal it reads changes, not when focus moves. The model states the display as a function of the current state.
- The `view!` markup, `mount_to_body` and the read-only `Uncontrolled` "Calculated amount" box are left out as UI rendering. `Controlled` and `ControlledPercent` are only the percentage flag, which `App.ControlOf` sets for the rate fields.
- The internals of the `evalexpr` parser and of `Value::as_number` are a foreign library, passed in as `Expr.Evaluator`.
- Expr.EvalExpr: passes the evaluator's error text through unchanged instead of modelling the `{:?}` Debug rendering, which belongs to the foreign error type.
- Rates.Replace: follows the fold as written, which re-enters already inserted literals (`Rates.ReentersLiteral`); a design that substitutes only the original text is not modelled. The "00" filter is what keeps the one all-digit code out of the numeric literals.
- f64 arithmetic is `real`: `powf`, `to_string` and `parse` are parameters, and nothing is claimed about rounding or about pow round trips. `App.EditRateReadsBack` takes exact inversion on positive bases only as a hypothesis.
- LocalStorage.Create: its `Err` carries the intended message, with the stored value in the value slot and the key in the key slot. The source passes the two the other way round. That message is modelled as `LocalStorage.ParseFailureAsWritten` (see Findings). `.expect` also appends `": {err:?}"`, the `Debug` text of the value type's parse error; `parse` returns an `Option`, so the model drops that suffix.
- App.SetValue: at period factor 1 a gain field writes nothing, where the source writes and persists `a / 0.0` (an infinite amount, or NaN for a gain of 0). The model is the guarded page (see Findings).
- App.EditGain: its factor-1 clause states the guarded page's no-op, not the source's non-finite write (see Findings).
- The unguarded gain division is modelled as written only through `App.NewAmountAsWritten` (a non-finite marker, not IEEE infinities or NaN). The page model uses the guarded `App.NewAmount` (see Findings).
- Browser storage failures (`expect` on the window, the storage handle, `get_item`, `set_item`) are environment I/O.
- On a failed evaluation the code writes `unwrap_or_default()`, which is 0.0, or 1.0 after the percentage conversion. It does not leave the value unchanged, and the derived fields change with it. The model follows the code (`Controlled.FailedEditShowsZero`, `App.FailedEditWritesZero`).

## Findings

| source | as written | input that shows it | evidently intended | confidence | as-written member | corrected member |
|---|---|---|---|---|---|---|
| src/main.rs:157-175 | each gain setter sets the amount to `a / (periodRate - 1.0)` with no guard | yearly factor 1.0 (0 %); typing 5 into "Yearly amount" gives amount 5/0 = inf, which is persisted | a period factor of 1 leaves the amount unchanged | high, not executed | `App.ZeroRateGainIsNonFinite` (about `App.NewAmountAsWritten`) | `App.NewAmount`, with `App.NewAmountInvertsGain`, `App.GainInvertsNewAmount` and `App.EditGainReadsBack` |
| src/local_storage.rs:24-27 | `format!` receives `key, v` for the slots "value `{}' for key: `{}'" | key "amount" holding "abc" panics with a message beginning "failed parsing local storage value `amount' for key: `abc'" | the stored text in the value slot, the key in the key slot | high, not executed | `LocalStorage.ParseFailureSwapped` (about `LocalStorage.ParseFailureAsWritten`) | `LocalStorage.ParseFailure`, used by `LocalStorage.Create` |

=== FILE: app.dfy ===
/** `App`: the calculator page. Two persisted sources of truth, the principal
    `amount` and the yearly growth factor `yearly`, and eleven editable fields
    derived from them: the amount, the growth factor over five periods (shown
    as percentages) and the gain over each period. Every rate field writes
    `yearly` only and every gain field writes `amount` only. `powf`, the
    evaluator and f64 formatting and parsing are passed in; the page layout
    and the read-only "Calculated amount" box are not part of this model. */
module App {
  import opened Wrappers
  import Expr
  import Percent
  import Controlled
  import LocalStorage

  datatype Period = Daily | Monthly | Yearly | FiveYears | TenYears

  /** The editable fields: the amount, and a rate and a gain per period. */
  datatype FieldId = AmountField | RateField(period: Period) | GainField(period: Period)

  /** `f64::powf`; its rounding is not part of this model. */
  type Pow = (real, real) -> real

  /** The collaborators the page is built from: `evalexpr`, `powf`, and f64's
      `to_string` (used both to display and to persist) and `parse`. */
  datatype Env = Env(eval: Expr.Evaluator, pow: Pow, show: real -> string, parse: string -> Option<real>)

  const AmountKey: string := "amount"
  const YearlyKey: string := "yearly"
  const DefaultAmount: real := 100.0
  const DefaultYearly: real := 1.07

  /** The page state: the two sources, the browser store they persist to,
      and the raw buffer of every field typed into so far. */
  datatype App = App(amount: real, yearly: real, store: LocalStorage.Store, buffers: map<FieldId, string>)

  /** How many years a period spans: the exponent that takes the yearly
      factor to the period's factor. */
  function Exponent(p: Period): (e: real)
    ensures e > 0.0
  {
    match p
    case Daily => 1.0 / 365.0
    case Monthly => 1.0 / 12.0
    case Yearly => 1.0
    case FiveYears => 5.0
    case TenYears => 10.0
  }

  /** The derived rate signals `daily`, `monthly`, `yearly_5`, `yearly_10`;
      the yearly field reads `yearly` itself. */
  function Rate(pow: Pow, yearly: real, p: Period): (r: real)
    ensures p == Yearly ==> r == yearly
    ensures p != Yearly ==> r == pow(yearly, Exponent(p))
  {
    match p
    case Daily => pow(yearly, 1.0 / 365.0)
    case Monthly => pow(yearly, 1.0 / 12.0)
    case Yearly => yearly
    case FiveYears => pow(yearly, 5.0)
    case TenYears => pow(yearly, 10.0)
  }

  /** The rate setters: the yearly factor each of them writes. Each raises the
      typed factor to the reciprocal of the exponent its getter uses. */
  function NewYearly(pow: Pow, p: Period, rate: real): (y: real)
    ensures p == Yearly ==> y == rate
    ensures p != Yearly ==> y == pow(rate, 1.0 / Exponent(p))
  {
    match p
    case Daily => pow(rate, 365.0)
    case Monthly => pow(rate, 12.0)
    case Yearly => rate
    case FiveYears => pow(rate, 1.0 / 5.0)
    case TenYears => pow(rate, 1.0 / 10.0)
  }

  /** The derived gain signals (`daily_amount`, ...): what `amount` earns
      over the period at the yearly factor `yearly`. */
  function Gain(pow: Pow, yearly: real, amount: real, p: Period): (g: real)
    ensures g == 0.0 <==> Rate(pow, yearly, p) == 1.0 || amount == 0.0
    ensures amount > 0.0 ==> (g > 0.0 <==> Rate(pow, yearly, p) > 1.0)
  {
    (Rate(pow, yearly, p) - 1.0) * amount
  }

  /** An f64 result as far as the gain setters need it: finite or not. */
  datatype F64 = Finite(x: real) | NonFinite

  /** The gain setters as written (`a / (daily.get() - 1.0)`, ...): with no
      guard, a period factor of exactly 1 divides by zero. */
  function NewAmountAsWritten(pow: Pow, yearly: real, p: Period, gain: real): F64 {
    var d := Rate(pow, yearly, p) - 1.0;
    if d == 0.0 then NonFinite else Finite(gain / d)
  }

  /** At 0% a year, typing any gain into "Yearly amount" makes the amount
      infinite or NaN, which the amount's setter then persists. */
  lemma ZeroRateGainIsNonFinite(pow: Pow, gain: real)
    ensures NewAmountAsWritten(pow, 1.0, Yearly, gain) == NonFinite
  {
  }

  /** The gain setters with the degenerate case guarded: no amount is
      written when the period factor is 1; otherwise the amount written is
      the one whose gain over the period is the typed gain. */
  function NewAmount(pow: Pow, yearly: real, p: Period, gain: real): (r: Option<real>)
    ensures r.None? <==> Rate(pow, yearly, p) == 1.0
    ensures r.Some? ==> NewAmountAsWritten(pow, yearly, p, gain) == Finite(r.value)
  {
    var d := Rate(pow, yearly, p) - 1.0;
    if d == 0.0 then None else Some(gain / d)
  }

  /** The amount a gain setter writes earns exactly the typed gain over the
      period: the setter inverts `Gain`. */
  lemma NewAmountInvertsGain(pow: Pow, yearly: real, p: Period, gain: real)
    requires Rate(pow, yearly, p) != 1.0
    ensures Gain(pow, yearly, NewAmount(pow, yearly, p, gain).value, p) == gain
  {
  }

  /** The other direction: unless the period factor is 1, the gain setter
      applied to the gain an amount earns gives back that amount. */
  lemma GainInvertsNewAmount(pow: Pow, yearly: real, amount: real, p: Period)
    requires Rate(pow, yearly, p) != 1.0
    ensures NewAmount(pow, yearly, p, Gain(pow, yearly, amount, p)) == Some(amount)
  {
    var d := Rate(pow, yearly, p) - 1.0;
    assert Gain(pow, yearly, amount, p) == d * amount;
    assert (d * amount) / d == amount;
  }

  /** The canonical value a field is bound to. */
  function Value(pow: Pow, app: App, id: FieldId): real {
    match id
    case AmountField => app.amount
    case RateField(p) => Rate(pow, app.yearly, p)
    case GainField(p) => Gain(pow, app.yearly, app.amount, p)
  }

  /** The field's `ControlledBase` state; rate fields are the percentage ones. */
  function ControlOf(app: App, id: FieldId): Controlled.Control {
    Controlled.Control(if id in app.buffers then app.buffers[id] else "", id.RateField?)
  }

  /** Writes the amount through its persisted cell. */
  function WriteAmount(env: Env, app: App, amount: real): App {
    var (cell, store) := LocalStorage.Write(app.store, LocalStorage.Cell(AmountKey, app.amount), amount, env.show);
    app.(amount := cell.value, store := store)
  }

  /** Writes the yearly factor through its persisted cell. */
  function WriteYearly(env: Env, app: App, yearly: real): App {
    var (cell, store) := LocalStorage.Write(app.store, LocalStorage.Cell(YearlyKey, app.yearly), yearly, env.show);
    app.(yearly := cell.value, store := store)
  }

  /** The `set_value` a field is wired to. The amount field writes the
      amount, rate fields write only `yearly`, gain fields only `amount`;
      whatever is written is persisted under its own key at once. */
  function SetValue(env: Env, app: App, id: FieldId, x: real): (a: App)
    ensures a.buffers == app.buffers
    ensures id == AmountField ==> a == app.(amount := x, store := app.store[AmountKey := env.show(x)])
    ensures id.RateField? ==>
      var y := NewYearly(env.pow, id.period, x);
      a == app.(yearly := y, store := app.store[YearlyKey := env.show(y)])
    ensures id.GainField? && Rate(env.pow, app.yearly, id.period) == 1.0 ==> a == app
    ensures id.GainField? && Rate(env.pow, app.yearly, id.period) != 1.0 ==>
      var amount := NewAmount(env.pow, app.yearly, id.period, x).value;
      a == app.(amount := amount, store := app.store[AmountKey := env.show(amount)])
  {
    match id
    case AmountField => WriteAmount(env, app, x)
    case RateField(p) => WriteYearly(env, app, NewYearly(env.pow, p, x))
    case GainField(p) =>
      match NewAmount(env.pow, app.yearly, p, x)
      case None => app
      case Some(amount) => WriteAmount(env, app, amount)
  }

  /** One keystroke in field `id`: its buffer takes the text and its setter
      receives what `OnInput` computes. No other buffer changes. */
  function Input(env: Env, app: App, id: FieldId, text: string): (a: App)
    ensures a.buffers == app.buffers[id := text]
  {
    var (control, written) := Controlled.OnInput(ControlOf(app, id), text, env.eval);
    SetValue(env, app.(buffers := app.buffers[id := control.local]), id, written)
  }

  /** What field `id` shows when `focus` holds the focused field, if any: the
      focused field its buffer ("" before the first keystroke), every other
      field its canonical value, rates as percentages. */
  function Display(env: Env, app: App, focus: Option<FieldId>, id: FieldId): (t: string)
    ensures focus == Some(id) ==> t == (if id in app.buffers then app.buffers[id] else "")
    ensures focus != Some(id) && id.RateField? ==> t == env.show(Percent.ToPercent(Rate(env.pow, app.yearly, id.period)))
    ensures focus != Some(id) && !id.RateField? ==> t == env.show(Value(env.pow, app, id))
  {
    Controlled.TextValue(ControlOf(app, id), Value(env.pow, app, id), focus == Some(id), env.show)
  }

  /** Whether field `id` shows its `ERROR` marker. */
  predicate ShowsError(env: Env, app: App, focus: Option<FieldId>, id: FieldId) {
    Controlled.ShowsError(ControlOf(app, id), Value(env.pow, app, id), focus == Some(id), env.show, env.eval)
  }

  /** Page start: both cells load from the store, the amount first; a stored
      value that does not parse stops the page. */
  function Start(env: Env, store: LocalStorage.Store): (r: Result<App, string>)
    ensures store == map[] ==> r == Ok(App(DefaultAmount, DefaultYearly, store, map[]))
    ensures AmountKey in store && env.parse(store[AmountKey]).None? ==> r.Err?
    ensures YearlyKey in store && env.parse(store[YearlyKey]).None? ==> r.Err?
    ensures ((AmountKey !in store || env.parse(store[AmountKey]).Some?)
             && (YearlyKey !in store || env.parse(store[YearlyKey]).Some?)) ==> r.Ok?
    ensures r.Ok? ==> r.value.store == store && r.value.buffers == map[]
    ensures r.Ok? ==>
      && (AmountKey !in store ==> r.value.amount == DefaultAmount)
      && (AmountKey in store ==> env.parse(store[AmountKey]) == Some(r.value.amount))
      && (YearlyKey !in store ==> r.value.yearly == DefaultYearly)
      && (YearlyKey in store ==> env.parse(store[YearlyKey]) == Some(r.value.yearly))
  {
    match LocalStorage.Create(store, AmountKey, DefaultAmount, env.parse)
    case Err(e) => Err(e)
    case Ok(amount) =>
      match LocalStorage.Create(store, YearlyKey, DefaultYearly, env.parse)
      case Err(e) => Err(e)
      case Ok(yearly) => Ok(App(amount.value, yearly.value, store, map[]))
  }

  /** After a keystroke the focused field shows the typed text, flags an
      error exactly when that text fails to evaluate, and every other
      field keeps its buffer. */
  lemma InputShowsTyped(env: Env, app: App, id: FieldId, text: string)
    ensures var a := Input(env, app, id, text);
      && Display(env, a, Some(id), id) == text
      && (ShowsError(env, a, Some(id), id) <==> Expr.EvalExpr(env.eval, text).Err?)
      && forall other :: other != id ==> ControlOf(a, other) == ControlOf(app, other)
  {
    var a := Input(env, app, id, text);
    assert a.buffers == app.buffers[id := text];
    assert ControlOf(a, id) == Controlled.Control(text, id.RateField?);
    Controlled.KeystrokeShown(ControlOf(app, id), Value(env.pow, app, id), text, env.show, env.eval);
  }

  /** Editing the amount keeps `yearly`, so every rate, and sets every gain to
      what the new amount earns over its period at the unchanged factor. */
  lemma EditAmount(env: Env, app: App, text: string)
    ensures var a := Input(env, app, AmountField, text);
      && a.amount == Controlled.Typed(env.eval, text)
      && a.yearly == app.yearly
      && a.store == app.store[AmountKey := env.show(a.amount)]
      && forall p :: Value(env.pow, a, GainField(p)) == Gain(env.pow, app.yearly, Controlled.Typed(env.eval, text), p)
  {
    var a := Input(env, app, AmountField, text);
    assert a.amount == Controlled.Typed(env.eval, text) && a.yearly == app.yearly;
  }

  /** Editing a rate field keeps the amount and writes `yearly` from the
      percentage typed; in the yearly field the new factor is exactly the
      typed percentage. */
  lemma EditRate(env: Env, app: App, p: Period, text: string)
    ensures var a := Input(env, app, RateField(p), text);
      && a.amount == app.amount
      && a.yearly == NewYearly(env.pow, p, Percent.FromPercent(Controlled.Typed(env.eval, text)))
      && (p == Yearly ==> Percent.ToPercent(a.yearly) == Controlled.Typed(env.eval, text))
      && a.store == app.store[YearlyKey := env.show(a.yearly)]
  {
  }

  /** `pow(pow(b, e), e') == b` for every positive base: the two exponents
      undo each other, as they do in exact exponentiation when e' == 1/e.
      Assumed of nothing here, only taken as a hypothesis. */
  ghost predicate Undoes(pow: Pow, e: real, e': real) {
    forall b | b > 0.0 :: pow(pow(b, e), e') == b
  }

  /** Read-back of a rate edit: if `powf` were exact on positive bases, the
      edited rate field, once focus leaves it, would show the percentage
      typed, provided that percentage is above -100 % (a positive factor). */
  lemma EditRateReadsBack(env: Env, app: App, p: Period, text: string)
    requires Percent.FromPercent(Controlled.Typed(env.eval, text)) > 0.0
    requires p != Yearly ==> Undoes(env.pow, 1.0 / Exponent(p), Exponent(p))
    ensures var a := Input(env, app, RateField(p), text);
      Percent.ToPercent(Value(env.pow, a, RateField(p))) == Controlled.Typed(env.eval, text)
  {
    var a := Input(env, app, RateField(p), text);
    var r := Percent.FromPercent(Controlled.Typed(env.eval, text));
    assert a.yearly == NewYearly(env.pow, p, r);
    if p != Yearly {
      assert env.pow(env.pow(r, 1.0 / Exponent(p)), Exponent(p)) == r;
    }
  }

  /** Editing a gain field keeps `yearly`; unless the period factor is 1,
      the amount is written and persisted. At factor 1 nothing is written. */
  lemma EditGain(env: Env, app: App, p: Period, text: string)
    ensures Input(env, app, GainField(p), text).yearly == app.yearly
    ensures Rate(env.pow, app.yearly, p) != 1.0 ==>
      var a := Input(env, app, GainField(p), text);
      a.amount == NewAmount(env.pow, app.yearly, p, Controlled.Typed(env.eval, text)).value
      && a.store == app.store[AmountKey := env.show(a.amount)]
    ensures Rate(env.pow, app.yearly, p) == 1.0 ==>
      var a := Input(env, app, GainField(p), text);
      a.amount == app.amount && a.store == app.store
  {
  }

  /** Read-back of a gain edit: unless the period factor is 1, the amount
      written earns the typed gain, so the edited field shows what was typed
      once focus leaves it. */
  lemma EditGainReadsBack(env: Env, app: App, p: Period, text: string)
    requires Rate(env.pow, app.yearly, p) != 1.0
    ensures Value(env.pow, Input(env, app, GainField(p), text), GainField(p)) == Controlled.Typed(env.eval, text)
  {
    var a := Input(env, app, GainField(p), text);
    var t := Controlled.Typed(env.eval, text);
    EditGain(env, app, p, text);
    NewAmountInvertsGain(env.pow, app.yearly, p, t);
    assert Value(env.pow, a, GainField(p)) == Gain(env.pow, app.yearly, a.amount, p);
  }

  /** A keystroke that fails to evaluate is written as zero in the field's
      units: amount 0, a rate of 0% (factor 1), or a gain of 0. */
  lemma FailedEditWritesZero(env: Env, app: App, id: FieldId, text: string)
    requires Expr.EvalExpr(env.eval, text).Err?
    ensures id == AmountField ==> Input(env, app, id, text).amount == 0.0
    ensures id.RateField? ==> Input(env, app, id, text).yearly == NewYearly(env.pow, id.period, 1.0)
    ensures id.GainField? && Rate(env.pow, app.yearly, id.period) != 1.0 ==>
      Input(env, app, id, text).amount == 0.0
  {
    var control := ControlOf(app, id);
    Controlled.FailedEditShowsZero(control, text, env.show, env.eval);
    if id.GainField? && Rate(env.pow, app.yearly, id.period) != 1.0 {
      var d := Rate(env.pow, app.yearly, id.period) - 1.0;
      assert NewAmount(env.pow, app.yearly, id.period, 0.0).value == 0.0 / d;
      assert 0.0 / d == 0.0;
    }
  }

  /** After any keystroke the store holds the text of both sources whenever
      it held it before: each write persists the value it sets. */
  lemma InputKeepsStoreInSync(env: Env, app: App, id: FieldId, text: string)
    requires AmountKey in app.store ==> app.store[AmountKey] == env.show(app.amount)
    requires YearlyKey in app.store ==> app.store[YearlyKey] == env.show(app.yearly)
    ensures var a := Input(env, app, id, text);
      && (AmountKey in a.store ==> a.store[AmountKey] == env.show(a.amount))
      && (YearlyKey in a.store ==> a.store[YearlyKey] == env.show(a.yearly))
  {
  }
}

=== FILE: controlled.dfy ===
/** `ControlledBase`: an editable field bound to a canonical value. While the
    field has focus it shows the raw text last typed; otherwise it shows the
    canonical value, formatted (as a percentage for rate fields). Focus is a
    plain input here: the DOM's active element is not part of this model. */
module Controlled {
  import opened Wrappers
  import Expr
  import Percent

  /** The state a field owns: the raw text last typed (the `local` signal,
      initially "") and whether it shows its value as a percentage. */
  datatype Control = Control(local: string, percent: bool)

  /** f64's `to_string`; its digits are not part of this model. */
  type Show = real -> string

  /** The canonical value in the units the field shows. */
  function InUnits(c: Control, value: real): real {
    if c.percent then Percent.ToPercent(value) else value
  }

  /** `text_value`: a focused field shows its raw buffer, an unfocused one
      the formatted canonical value. */
  function TextValue(c: Control, value: real, focused: bool, show: Show): (t: string)
    ensures focused ==> t == c.local
    ensures !focused ==> t == show(if c.percent then Percent.ToPercent(value) else value)
  {
    var formatted := show(InUnits(c, value));
    if focused then c.local else formatted
  }

  /** The evaluated number a keystroke carries, zero when evaluation fails
      (`unwrap_or_default`). */
  function Typed(eval: Expr.Evaluator, text: string): real {
    Expr.EvalExpr(eval, text).UnwrapOr(0.0)
  }

  /** `on:input`: the buffer takes the typed text, and the value handed to
      `set_value` is the one that, shown in the field's units, reads as the
      evaluated number, or as 0 when evaluation fails (`unwrap_or_default`). */
  function OnInput(c: Control, text: string, eval: Expr.Evaluator): (r: (Control, real))
    ensures r.0 == Control(text, c.percent)
    ensures Expr.EvalExpr(eval, text).Ok? ==> InUnits(c, r.1) == Expr.EvalExpr(eval, text).value
    ensures Expr.EvalExpr(eval, text).Err? ==> InUnits(c, r.1) == 0.0
  {
    var globalValue := Typed(eval, text);
    (Control(text, c.percent), if c.percent then Percent.FromPercent(globalValue) else globalValue)
  }

  /** The `ERROR` marker: shown when the displayed text does not evaluate,
      which is when it is not blank and the evaluator rejects it. */
  function ShowsError(c: Control, value: real, focused: bool, show: Show, eval: Expr.Evaluator): (b: bool)
    ensures var t := TextValue(c, value, focused, show);
      b <==> !Expr.Blank(t) && eval(t).Err?
  {
    Expr.EvalExpr(eval, TextValue(c, value, focused, show)).Err?
  }

  /** After a keystroke the focused field shows exactly what was typed, and
      the marker appears exactly when that text fails to evaluate, which
      blank text never does. */
  lemma KeystrokeShown(c: Control, value: real, text: string, show: Show, eval: Expr.Evaluator)
    ensures var (c', written) := OnInput(c, text, eval);
      && TextValue(c', written, true, show) == text
      && (ShowsError(c', written, true, show, eval) <==> Expr.EvalExpr(eval, text).Err?)
      && (ShowsError(c', written, true, show, eval) ==> !Expr.Blank(text))
  {
  }

  /** Unfocused, the raw buffer is irrelevant: two fields of the same kind
      holding different buffers show the same text and the same marker. */
  lemma UnfocusedIgnoresBuffer(c1: Control, c2: Control, value: real, show: Show, eval: Expr.Evaluator)
    requires c1.percent == c2.percent
    ensures TextValue(c1, value, false, show) == TextValue(c2, value, false, show)
    ensures ShowsError(c1, value, false, show, eval) <==> ShowsError(c2, value, false, show, eval)
  {
  }

  /** An edit that fails to evaluate does not keep the previous value: the
      field writes 0 (1.0, i.e. 0%, for a percentage field), so once focus
      leaves, plain and percentage fields alike show zero. */
  lemma FailedEditShowsZero(c: Control, text: string, show: Show, eval: Expr.Evaluator)
    requires !Expr.Blank(text) && eval(text).Err?
    ensures var (c', written) := OnInput(c, text, eval);
      && written == (if c.percent then 1.0 else 0.0)
      && TextValue(c', written, false, show) == show(0.0)
  {
  }
}

=== FILE: expr.dfy ===
/** `eval_expr`: the text of a field evaluated as an arithmetic expression.
    Blank text means zero; anything else goes to the `evalexpr` crate, whose
    parser is not part of this model and is passed in as `Evaluator`. */
module Expr {
  import opened Wrappers

  /** `evalexpr::eval(s).and_then(as_number)`, with its error already
      rendered as text. */
  type Evaluator = string -> Result<real, string>

  /** Rust's `char::is_whitespace`: the Unicode `White_Space` property. */
  predicate IsWhitespace(c: char) {
    || '\t' <= c <= '\r'
    || c == ' '
    || c == '\U{85}'
    || c == '\U{A0}'
    || c == '\U{1680}'
    || '\U{2000}' <= c <= '\U{200A}'
    || c == '\U{2028}'
    || c == '\U{2029}'
    || c == '\U{202F}'
    || c == '\U{205F}'
    || c == '\U{3000}'
  }

  /** Every character of `s` is whitespace (vacuously so for ""). */
  predicate Blank(s: string) {
    forall i :: 0 <= i < |s| ==> IsWhitespace(s[i])
  }

  /** Rust's `trim_start`: the suffix left after dropping leading whitespace. */
  function TrimStart(s: string): (r: string)
    ensures |r| <= |s| && r == s[|s| - |r|..]
    ensures Blank(s[..|s| - |r|])
    ensures r == [] || !IsWhitespace(r[0])
  {
    if s != [] && IsWhitespace(s[0]) then
      var r := TrimStart(s[1..]);
      TrimStartStep(s, r);
      r
    else s
  }

  /** Dropping one more leading whitespace character: if `r` is what is left
      of `s[1..]` after a blank prefix, it is what is left of `s` too. */
  lemma TrimStartStep(s: string, r: string)
    requires s != [] && IsWhitespace(s[0])
    requires |r| <= |s| - 1 && r == s[1..][|s| - 1 - |r|..]
    requires Blank(s[1..][..|s| - 1 - |r|])
    ensures r == s[|s| - |r|..]
    ensures Blank(s[..|s| - |r|])
  {
    assert s[1..][|s| - 1 - |r|..] == s[|s| - |r|..];
    forall i | 0 <= i < |s| - |r|
      ensures IsWhitespace(s[i])
    {
      if i > 0 {
        assert s[i] == s[1..][..|s| - 1 - |r|][i - 1];
      }
    }
  }

  /** Rust's `trim_end`: the prefix left after dropping trailing whitespace. */
  function TrimEnd(s: string): (r: string)
    ensures |r| <= |s| && r == s[..|r|]
    ensures Blank(s[|r|..])
    ensures r == [] || !IsWhitespace(r[|r| - 1])
  {
    if s != [] && IsWhitespace(s[|s| - 1]) then
      var r := TrimEnd(s[..|s| - 1]);
      assert s[|r|..] == s[..|s| - 1][|r|..] + [s[|s| - 1]];
      r
    else s
  }

  /** Rust's `trim`. Only blank text trims to nothing. */
  function Trim(s: string): (r: string)
    ensures r == [] <==> Blank(s)
  {
    var start := TrimStart(s);
    assert start == [] ==> s[..|s|] == s;
    assert Blank(s) ==> start == [] by {
      if start != [] {
        assert start[0] == s[|s| - |start|];
      }
    }
    TrimEnd(start)
  }

  /** `eval_expr`: blank text evaluates to 0.0 and never fails; any other
      text yields exactly the evaluator's number or its error. */
  function EvalExpr(eval: Evaluator, s: string): (r: Result<real, string>)
    ensures Blank(s) ==> r == Ok(0.0)
    ensures !Blank(s) && eval(s).Ok? ==> r == Ok(eval(s).value)
    ensures !Blank(s) && eval(s).Err? ==> r.Err?
  {
    if Trim(s) == [] then Ok(0.0)
    else
      match eval(s)
      case Ok(result) => Ok(result)
      case Err(err) => Err(err)
  }
}

=== FILE: local_storage.dfy ===
/** `create_local_storage`: a value cell backed by one key of the browser's
    local storage. The storage is a map from keys to strings; the value
    type's `FromStr` and `ToString` are passed in as `parse` and `show`.
    Failures of the browser calls themselves (`expect` on the window, the
    storage handle, `get_item`, `set_item`) are not part of this model. */
module LocalStorage {
  import opened Wrappers

  type Store = map<string, string>

  /** The in-memory signal together with the storage key it is written to. */
  datatype Cell<T> = Cell(key: string, value: T)

  /** The text of the panic message up to the stored value's slot. */
  const ValueSlot: string := "failed parsing local storage value `"

  /** The panic message for a stored value that does not parse, with the
      stored value and the key each in its own slot. */
  function ParseFailure(value: string, key: string): (msg: string)
    ensures |msg| == |ValueSlot| + |value| + |"' for key: `"| + |key| + 1
    ensures msg[..|ValueSlot|] == ValueSlot
    ensures msg[|ValueSlot|..|ValueSlot| + |value|] == value
    ensures msg[|msg| - 1 - |key|..|msg| - 1] == key
  {
    ValueSlot + value + "' for key: `" + key + "'"
  }

  /** The panic message as the source builds it: `format!` receives the key
      first and the stored value second, the reverse of the slots. */
  function ParseFailureAsWritten(store: Store, key: string): string
    requires key in store
  {
    ParseFailure(key, store[key])
  }

  /** The source's message puts the key where the stored value belongs: for
      the key "amount" holding "abc" it reads "... value `amount' ...". */
  lemma ParseFailureSwapped()
    ensures var store := map["amount" := "abc"];
      && ParseFailureAsWritten(store, "amount")
         == "failed parsing local storage value `amount' for key: `abc'"
      && ParseFailureAsWritten(store, "amount") != ParseFailure(store["amount"], "amount")
  {
    var store := map["amount" := "abc"];
    var asWritten := ParseFailureAsWritten(store, "amount");
    var intended := ParseFailure("abc", "amount");
    assert asWritten[|ValueSlot|..|ValueSlot| + 3] == "amo";
    assert intended[|ValueSlot|..|ValueSlot| + 3] == "abc";
  }

  /** Loading the cell: an absent key gives the default, a present key its
      parsed value, and a present value that does not parse is fatal (a
      panic, modelled as `Err`) instead of falling back to the default. */
  function Create<T>(store: Store, key: string, default: T, parse: string -> Option<T>)
    : (r: Result<Cell<T>, string>)
    ensures key !in store ==> r == Ok(Cell(key, default))
    ensures key in store && parse(store[key]).Some? ==> r == Ok(Cell(key, parse(store[key]).value))
    ensures key in store && parse(store[key]).None? ==> r == Err(ParseFailure(store[key], key))
  {
    match if key in store then Some(store[key]) else None
    case Some(v) =>
      (match parse(v)
       case Some(initial) => Ok(Cell(key, initial))
       case None => Err(ParseFailure(v, key)))
    case None => Ok(Cell(key, default))
  }

  /** The setter: the signal takes the new value and the store receives its
      text under the cell's key; no other key is touched. */
  function Write<T>(store: Store, cell: Cell<T>, newValue: T, show: T -> string): (r: (Cell<T>, Store))
    ensures r.0.key == cell.key && r.0.value == newValue
    ensures r.1.Keys == store.Keys + {cell.key}
    ensures r.1[cell.key] == show(r.0.value)
    ensures forall k :: k in store && k != cell.key ==> r.1[k] == store[k]
  {
    (Cell(cell.key, newValue), store[cell.key := show(newValue)])
  }

  /** Loading after a write gives back the written value, provided the value
      type's text survives parsing. */
  lemma WriteThenCreate<T>(store: Store, cell: Cell<T>, newValue: T, default: T,
                               show: T -> string, parse: string -> Option<T>)
    requires parse(show(newValue)) == Some(newValue)
    ensures Create(Write(store, cell, newValue, show).1, cell.key, default, parse)
         == Ok(Write(store, cell, newValue, show).0)
  {
  }
}

=== FILE: percent.dfy ===
/** The `Percent` newtype of main.rs: a growth factor such as 1.07 shown as
    the percentage 7. Both conversions are exact over `real`. */
module Percent {

  /** `Percent::from(rate)`: the percentage a growth factor stands for.
      Converting it back (`FromPercent`) gives the factor again. */
  function ToPercent(rate: real): (pct: real)
    ensures pct / 100.0 + 1.0 == rate
  {
    (rate - 1.0) * 100.0
  }

  /** `f64::from(Percent(pct))`: the growth factor of a percentage.
      Converting it back (`ToPercent`) gives the percentage again. */
  function FromPercent(pct: real): (rate: real)
    ensures (rate - 1.0) * 100.0 == pct
  {
    pct / 100.0 + 1.0
  }

  /** Both round trips are exact. */
  lemma RoundTrips(rate: real, pct: real)
    ensures FromPercent(ToPercent(rate)) == rate
    ensures ToPercent(FromPercent(pct)) == pct
  {
  }
}

=== FILE: rates.dfy ===
/** `Rates::replace`: rewrites every currency code of a rate table that occurs
    in an expression into the parenthesised rate, one table entry after the
    other, skipping the reserved home-currency code "00".

    The table is a Rust `HashMap`, whose iteration order is unspecified; it is
    modelled as the sequence of its entries in iteration order, and every
    property below holds for every such sequence. */
module Rates {
  import StrReplace

  /** One table entry: a currency code and its rate as text. */
  type Entry = (string, string)

  /** The reserved home-currency code, never substituted. */
  const Home: string := "00"

  /** The text a code is replaced with: `format!("({el})")`. */
  function Literal(rate: string): string {
    "(" + rate + ")"
  }

  /** One fold step: replace every occurrence of the entry's code. */
  function Step(acc: string, e: Entry): string {
    StrReplace.Replace(acc, e.0, Literal(e.1))
  }

  /** The entries the `filter` lets through, in iteration order. */
  function Eligible(table: seq<Entry>): seq<Entry> {
    if table == [] then []
    else (if table[0].0 == Home then [] else [table[0]]) + Eligible(table[1..])
  }

  /** The entries that reach the fold are exactly the table's entries whose
      code is not the home code. */
  lemma {:induction false} EligibleMembers(table: seq<Entry>)
    ensures forall e :: e in Eligible(table) <==> e in table && e.0 != Home
    decreases |table|
  {
    if table != [] {
      EligibleMembers(table[1..]);
      assert table == [table[0]] + table[1..];
    }
  }

  /** A left fold of `Step` over the entries, starting from `acc`. */
  function Fold(entries: seq<Entry>, acc: string): string {
    if entries == [] then acc else Fold(entries[1..], Step(acc, entries[0]))
  }

  /** `Rates::replace(expr)`. An empty table, or one holding only the home
      entry, leaves the expression as it is. */
  function Replace(table: seq<Entry>, expr: string): (r: string)
    ensures (forall i :: 0 <= i < |table| ==> table[i].0 == Home) ==> r == expr
  {
    var entries := Eligible(table);
    assert (forall i :: 0 <= i < |table| ==> table[i].0 == Home) ==> entries == [] by {
      EligibleMembers(table);
      if entries != [] {
        assert entries[0] in table;
      }
    }
    Fold(entries, expr)
  }

  lemma {:induction false} EligibleAppend(a: seq<Entry>, b: seq<Entry>)
    ensures Eligible(a + b) == Eligible(a) + Eligible(b)
    decreases |a|
  {
    if a != [] {
      assert (a + b)[1..] == a[1..] + b;
      EligibleAppend(a[1..], b);
    } else {
      assert a + b == b;
    }
  }

  /** Folding over a concatenation is folding over the first part, then over
      the second part from where the first one stopped. */
  lemma {:induction false} FoldAppend(a: seq<Entry>, b: seq<Entry>, acc: string)
    ensures Fold(a + b, acc) == Fold(b, Fold(a, acc))
    decreases |a|
  {
    if a != [] {
      assert (a + b)[1..] == a[1..] + b;
      FoldAppend(a[1..], b, Step(acc, a[0]));
    } else {
      assert a + b == b;
    }
  }

  /** The result is a left fold: the last entry's replacement is applied to
      what the entries before it produced, and a home entry adds nothing. */
  lemma ReplaceSnoc(table: seq<Entry>, e: Entry, expr: string)
    ensures Replace(table + [e], expr)
         == if e.0 == Home then Replace(table, expr) else Step(Replace(table, expr), e)
  {
    EligibleAppend(table, [e]);
    assert Eligible([e]) == (if e.0 == Home then [] else [e]);
    FoldAppend(Eligible(table), Eligible([e]), expr);
    if e.0 == Home {
      assert Eligible(table) + [] == Eligible(table);
    }
  }

  /** A one-entry table replaces its code by the parenthesised rate, unless
      the code is the home code. */
  lemma SingleEntry(code: string, rate: string, expr: string)
    ensures Replace([(code, rate)], expr)
         == if code == Home then expr else StrReplace.Replace(expr, code, "(" + rate + ")")
  {
    ReplaceSnoc([], (code, rate), expr);
    assert [] + [(code, rate)] == [(code, rate)];
  }

  /** Wherever home entries sit in the iteration order, and whatever rate
      they carry, the result is the one for the table without them. */
  lemma HomeEntryIgnored(before: seq<Entry>, rate: string, after: seq<Entry>, expr: string)
    ensures Replace(before + [(Home, rate)] + after, expr) == Replace(before + after, expr)
  {
    EligibleAppend(before + [(Home, rate)], after);
    EligibleAppend(before, [(Home, rate)]);
    EligibleAppend(before, after);
    assert Eligible([(Home, rate)]) == [];
    assert Eligible(before) + [] == Eligible(before);
  }

  lemma {:induction false} FoldUnchanged(entries: seq<Entry>, acc: string)
    requires forall i :: 0 <= i < |entries| ==> !StrReplace.Occurs(acc, entries[i].0)
    ensures Fold(entries, acc) == acc
    decreases |entries|
  {
    if entries != [] {
      StrReplace.ReplaceAbsent(acc, entries[0].0, Literal(entries[0].1));
      FoldUnchanged(entries[1..], acc);
    }
  }

  /** An expression in which no code other than the home code occurs comes
      back unchanged: nothing is replaced, so no replacement can introduce a
      code either. (An empty code occurs in every text, so this also requires
      the table to have none.) */
  lemma UnchangedWhenNoCodeOccurs(table: seq<Entry>, expr: string)
    requires forall i :: 0 <= i < |table| && table[i].0 != Home ==> !StrReplace.Occurs(expr, table[i].0)
    ensures Replace(table, expr) == expr
  {
    var entries := Eligible(table);
    EligibleMembers(table);
    forall i | 0 <= i < |entries|
      ensures !StrReplace.Occurs(expr, entries[i].0)
    {
      assert entries[i] in table;
    }
    FoldUnchanged(entries, expr);
  }

  lemma UsdFirst()
    ensures Replace([("USD", "1"), ("USDC", "2")], "USDC") == "(1)C"
  {
    ReplaceSnoc([("USD", "1")], ("USDC", "2"), "USDC");
    assert [("USD", "1")] + [("USDC", "2")] == [("USD", "1"), ("USDC", "2")];
    SingleEntry("USD", "1", "USDC");
    assert "USDC"[..3] == "USD";
    assert StrReplace.ReplaceAll("C", "USD", "(1)") == "C";
    assert StrReplace.ReplaceAll("USDC", "USD", "(1)") == "(1)" + "C";
    assert !StrReplace.OccursAt("(1)C", "USDC", 0);
    assert !StrReplace.Occurs("(1)C", "USDC");
    StrReplace.ReplaceAbsent("(1)C", "USDC", "(2)");
  }

  lemma UsdcFirst()
    ensures Replace([("USDC", "2"), ("USD", "1")], "USDC") == "(2)"
  {
    ReplaceSnoc([("USDC", "2")], ("USD", "1"), "USDC");
    assert [("USDC", "2")] + [("USD", "1")] == [("USDC", "2"), ("USD", "1")];
    SingleEntry("USDC", "2", "USDC");
    assert "USDC"[..4] == "USDC";
    assert StrReplace.ReplaceAll("", "USDC", "(2)") == "";
    assert StrReplace.ReplaceAll("USDC", "USDC", "(2)") == "(2)" + "";
    assert !StrReplace.Occurs("(2)", "USD");
    StrReplace.ReplaceAbsent("(2)", "USD", "(1)");
  }

  /** The result depends on the `HashMap`'s iteration order when one code
      contains another: the same two entries, "USD" and "USDC", visited in
      the two possible orders, turn "USDC" into different texts. */
  lemma OrderMatters()
    ensures Replace([("USD", "1"), ("USDC", "2")], "USDC") == "(1)C"
    ensures Replace([("USDC", "2"), ("USD", "1")], "USDC") == "(2)"
  {
    UsdFirst();
    UsdcFirst();
  }

  /** Substitution re-enters the literals it has already inserted: a later
      entry whose code occurs in an earlier entry's rate text rewrites it. */
  lemma ReentersLiteral()
    ensures Replace([("USD", "1.5"), ("5", "2")], "USD") == "(1.(2))"
  {
    ReplaceSnoc([("USD", "1.5")], ("5", "2"), "USD");
    assert [("USD", "1.5")] + [("5", "2")] == [("USD", "1.5"), ("5", "2")];
    UsdBecomesLiteral();
    assert Literal("2") == "(2)";
    FiveRewritten();
  }

  lemma UsdBecomesLiteral()
    ensures Replace([("USD", "1.5")], "USD") == "(1.5)"
  {
    SingleEntry("USD", "1.5", "USD");
    assert "USD"[..3] == "USD" && "USD"[3..] == "";
    assert StrReplace.ReplaceAll("", "USD", "(1.5)") == "";
    assert StrReplace.ReplaceAll("USD", "USD", "(1.5)") == "(1.5)" + "";
  }

  lemma FiveRewritten()
    ensures StrReplace.Replace("(1.5)", "5", "(2)") == "(1.(2))"
  {
    assert StrReplace.ReplaceAll("", "5", "(2)") == "";
    assert ")"[..1] != "5" && ")"[1..] == "";
    assert StrReplace.ReplaceAll(")", "5", "(2)") == ")" + "";
    assert "5)"[..1] == "5" && "5)"[1..] == ")";
    assert StrReplace.ReplaceAll("5)", "5", "(2)") == "(2)" + ")";
    assert ".5)"[..1] != "5" && ".5)"[1..] == "5)";
    assert StrReplace.ReplaceAll(".5)", "5", "(2)") == "." + "(2))";
    assert "1.5)"[..1] != "5" && "1.5)"[1..] == ".5)";
    assert StrReplace.ReplaceAll("1.5)", "5", "(2)") == "1" + ".(2))";
    assert "(1.5)"[..1] != "5" && "(1.5)"[1..] == "1.5)";
    assert StrReplace.ReplaceAll("(1.5)", "5", "(2)") == "(" + "1.(2))";
  }
}

=== FILE: str_replace.dfy ===
/** Rust's `str::replace` on a `&str` pattern: every non-overlapping
    occurrence of the pattern, found left to right, is replaced by the
    replacement text. An empty pattern matches at every character boundary. */
module StrReplace {

  /** `pat` occurs in `s` starting at index `i`. */
  predicate OccursAt(s: string, pat: string, i: int) {
    0 <= i && i + |pat| <= |s| && s[i..i + |pat|] == pat
  }

  /** `pat` occurs somewhere in `s` (the empty pattern occurs in every string). */
  predicate Occurs(s: string, pat: string) {
    exists i | 0 <= i <= |s| :: OccursAt(s, pat, i)
  }

  /** Replacement for a non-empty pattern: scan left to right; at a match,
      emit `rep` and resume after the match, otherwise keep the character. */
  function ReplaceAll(s: string, pat: string, rep: string): string
    requires |pat| > 0
    decreases |s|
  {
    if |s| < |pat| then s
    else if s[..|pat|] == pat then rep + ReplaceAll(s[|pat|..], pat, rep)
    else [s[0]] + ReplaceAll(s[1..], pat, rep)
  }

  /** Replacement for the empty pattern: `rep` goes before every character
      and once more at the end. */
  function ReplaceEmpty(s: string, rep: string): (r: string)
    ensures |r| == |s| + (|s| + 1) * |rep|
    ensures rep == [] ==> r == s
  {
    if s == [] then rep
    else
      var tail := ReplaceEmpty(s[1..], rep);
      assert |tail| == |s| - 1 + |s| * |rep|;
      rep + [s[0]] + tail
  }

  /** Where, in `ReplaceEmpty(s, rep)` with `|s| == n` and `|rep| == w`, the
      block of character `i` starts: after `i` blocks of `w + 1` characters. */
  function Offset(i: nat, n: nat, w: nat): (o: nat)
    requires i < n
    ensures o + w < n + (n + 1) * w
  {
    assert (n + 1) * w == n * w + w;
    if i == 0 then 0
    else
      assert n * w == (n - 1) * w + w;
      Offset(i - 1, n - 1, w) + w + 1
  }

  /** With an empty pattern, a copy of `rep` sits at each of the `|s| + 1`
      character boundaries: before every character of `s`, and at the end. */
  lemma ReplaceEmptyPlacement(s: string, rep: string)
    ensures var r := ReplaceEmpty(s, rep);
      forall i :: 0 <= i < |s| ==>
        var o := Offset(i, |s|, |rep|);
        r[o .. o + |rep|] == rep && r[o + |rep|] == s[i]
    ensures var r := ReplaceEmpty(s, rep); r[|r| - |rep|..] == rep
  {
    forall i | 0 <= i < |s|
      ensures var r := ReplaceEmpty(s, rep); var o := Offset(i, |s|, |rep|);
        r[o .. o + |rep|] == rep && r[o + |rep|] == s[i]
    {
      BlockAt(s, rep, i);
    }
    LastCopy(s, rep);
  }

  /** The block of character `i`: a copy of `rep`, then the character. */
  lemma {:induction false} BlockAt(s: string, rep: string, i: nat)
    requires i < |s|
    ensures var r := ReplaceEmpty(s, rep); var o := Offset(i, |s|, |rep|);
      r[o .. o + |rep|] == rep && r[o + |rep|] == s[i]
    decreases i
  {
    var r := ReplaceEmpty(s, rep);
    var head := rep + [s[0]];
    var tail := ReplaceEmpty(s[1..], rep);
    assert r == head + tail;
    if i > 0 {
      BlockAt(s[1..], rep, i - 1);
      var o' := Offset(i - 1, |s| - 1, |rep|);
      assert Offset(i, |s|, |rep|) == |head| + o';
      ShiftSlice(head, tail, o', o' + |rep|);
    }
  }

  /** The last `|rep|` characters are a copy of `rep`. */
  lemma {:induction false} LastCopy(s: string, rep: string)
    ensures var r := ReplaceEmpty(s, rep); r[|r| - |rep|..] == rep
    decreases |s|
  {
    if s != [] {
      var head := rep + [s[0]];
      var tail := ReplaceEmpty(s[1..], rep);
      assert ReplaceEmpty(s, rep) == head + tail;
      LastCopy(s[1..], rep);
      ShiftSlice(head, tail, |tail| - |rep|, |tail|);
    }
  }

  /** A slice of the tail of `a + t` is the same slice of `t`, shifted by `|a|`. */
  lemma ShiftSlice(a: string, t: string, x: nat, y: nat)
    requires x <= y <= |t|
    ensures (a + t)[|a| + x .. |a| + y] == t[x..y]
    ensures y < |t| ==> (a + t)[|a| + y] == t[y]
  {
  }

  /** Rust's `s.replace(pat, rep)`: for a non-empty pattern, the text cut at
      the matches and rejoined with `rep`; for the empty one, `rep` at all
      `|s| + 1` boundaries. */
  function Replace(s: string, pat: string, rep: string): (r: string)
    ensures pat != [] ==> r == Join(Split(s, pat), rep)
    ensures pat == [] ==> |r| == |s| + (|s| + 1) * |rep|
  {
    if pat == [] then ReplaceEmpty(s, rep)
    else
      ReplaceAllJoin(s, pat, rep);
      ReplaceAll(s, pat, rep)
  }

  /** The pieces are glued back together with `sep` between consecutive ones. */
  function Join(pieces: seq<string>, sep: string): string
    requires |pieces| > 0
  {
    if |pieces| == 1 then pieces[0] else pieces[0] + sep + Join(pieces[1..], sep)
  }

  /** The text between the matches `ReplaceAll` finds: the first piece runs up
      to the first match, the last one from the last match to the end. */
  function Split(s: string, pat: string): (pieces: seq<string>)
    requires |pat| > 0
    ensures |pieces| > 0
    ensures pieces[0] <= s
    decreases |s|
  {
    if |s| < |pat| then [s]
    else if s[..|pat|] == pat then [""] + Split(s[|pat|..], pat)
    else
      var t := Split(s[1..], pat);
      [[s[0]] + t[0]] + t[1..]
  }

  lemma JoinPrepend(c: char, pieces: seq<string>, sep: string)
    requires |pieces| > 0
    ensures Join([[c] + pieces[0]] + pieces[1..], sep) == [c] + Join(pieces, sep)
  {
    var moved := [[c] + pieces[0]] + pieces[1..];
    assert moved[1..] == pieces[1..];
  }

  /** Joining the pieces with the pattern itself gives back the text. */
  lemma {:induction false} SplitJoin(s: string, pat: string)
    requires |pat| > 0
    ensures Join(Split(s, pat), pat) == s
    decreases |s|
  {
    if |s| < |pat| {
    } else if s[..|pat|] == pat {
      SplitJoin(s[|pat|..], pat);
      var t := Split(s[|pat|..], pat);
      assert ([""] + t)[1..] == t;
      assert s == s[..|pat|] + s[|pat|..];
    } else {
      SplitJoin(s[1..], pat);
      JoinPrepend(s[0], Split(s[1..], pat), pat);
      assert s == [s[0]] + s[1..];
    }
  }

  /** Replacing is joining the pieces with the replacement. */
  lemma {:induction false} ReplaceAllJoin(s: string, pat: string, rep: string)
    requires |pat| > 0
    ensures ReplaceAll(s, pat, rep) == Join(Split(s, pat), rep)
    decreases |s|
  {
    if |s| < |pat| {
    } else if s[..|pat|] == pat {
      var rest := s[|pat|..];
      ReplaceAllJoin(rest, pat, rep);
      var t := Split(rest, pat);
      assert Split(s, pat) == [""] + t;
      assert ReplaceAll(s, pat, rep) == rep + Join(t, rep);
      assert ([""] + t)[1..] == t;
      assert Join([""] + t, rep) == "" + rep + Join(t, rep);
    } else {
      var rest := s[1..];
      ReplaceAllJoin(rest, pat, rep);
      var t := Split(rest, pat);
      assert Split(s, pat) == [[s[0]] + t[0]] + t[1..];
      assert ReplaceAll(s, pat, rep) == [s[0]] + Join(t, rep);
      JoinPrepend(s[0], t, rep);
    }
  }

  /** A character in front of a piece free of the pattern creates no match,
      as long as the text the two begin does not start with the pattern. */
  lemma PrependAvoids(c: char, piece: string, s: string, pat: string)
    requires |pat| > 0 && |pat| <= |s| && s[..|pat|] != pat
    requires [c] + piece <= s
    requires !Occurs(piece, pat)
    ensures !Occurs([c] + piece, pat)
  {
    var head := [c] + piece;
    forall j | 0 <= j <= |head|
      ensures !OccursAt(head, pat, j)
    {
      if j == 0 {
        if |pat| <= |head| {
          assert head[..|pat|] == s[..|pat|];
        }
      } else if OccursAt(head, pat, j) {
        assert head[j..j + |pat|] == piece[j - 1..j - 1 + |pat|];
        assert OccursAt(piece, pat, j - 1);
      }
    }
  }

  /** No piece contains the pattern: every match is consumed by the scan. */
  lemma {:induction false} SplitPiecesAvoid(s: string, pat: string)
    requires |pat| > 0
    ensures forall i :: 0 <= i < |Split(s, pat)| ==> !Occurs(Split(s, pat)[i], pat)
    decreases |s|
  {
    var pieces := Split(s, pat);
    if |s| < |pat| {
      assert pieces == [s];
      assert !Occurs(s, pat);
    } else if s[..|pat|] == pat {
      var t := Split(s[|pat|..], pat);
      SplitPiecesAvoid(s[|pat|..], pat);
      assert pieces == [""] + t;
      forall i | 0 <= i < |pieces|
        ensures !Occurs(pieces[i], pat)
      {
        if i == 0 {
          assert !Occurs("", pat);
        } else {
          assert pieces[i] == t[i - 1];
        }
      }
    } else {
      var t := Split(s[1..], pat);
      SplitPiecesAvoid(s[1..], pat);
      assert pieces == [[s[0]] + t[0]] + t[1..];
      forall i | 0 <= i < |pieces|
        ensures !Occurs(pieces[i], pat)
      {
        if i == 0 {
          PrependAvoids(s[0], t[0], s, pat);
        } else {
          assert pieces[i] == t[i];
        }
      }
    }
  }

  /** There is a match exactly when the scan cuts the text into two or more pieces. */
  lemma OccursIffSplits(s: string, pat: string)
    requires |pat| > 0
    ensures Occurs(s, pat) <==> |Split(s, pat)| > 1
  {
    var pieces := Split(s, pat);
    SplitJoin(s, pat);
    SplitPiecesAvoid(s, pat);
    if |pieces| == 1 {
      assert s == pieces[0];
    } else {
      assert s == pieces[0] + pat + Join(pieces[1..], pat);
      assert OccursAt(s, pat, |pieces[0]|);
    }
  }

  /** Every cut is at the leftmost match: no match starts inside a piece
      that the pattern follows, so none overlaps the cut it precedes. */
  lemma {:induction false} SplitLeftmost(s: string, pat: string)
    requires |pat| > 0
    ensures forall i :: 0 <= i < |Split(s, pat)| - 1 ==>
      !Occurs(Split(s, pat)[i] + pat[..|pat| - 1], pat)
    decreases |s|
  {
    var pieces := Split(s, pat);
    var short := pat[..|pat| - 1];
    if |s| < |pat| {
    } else if s[..|pat|] == pat {
      var t := Split(s[|pat|..], pat);
      SplitLeftmost(s[|pat|..], pat);
      assert pieces == [""] + t;
      forall i | 0 <= i < |pieces| - 1
        ensures !Occurs(pieces[i] + short, pat)
      {
        if i == 0 {
          assert pieces[0] + short == short;
          assert !Occurs(short, pat);
        } else {
          assert pieces[i] == t[i - 1];
          assert !Occurs(t[i - 1] + short, pat);
        }
      }
    } else {
      var t := Split(s[1..], pat);
      SplitLeftmost(s[1..], pat);
      assert pieces == [[s[0]] + t[0]] + t[1..];
      forall i | 0 <= i < |pieces| - 1
        ensures !Occurs(pieces[i] + short, pat)
      {
        if i == 0 {
          SplitJoin(s[1..], pat);
          assert s[1..] == t[0] + pat + Join(t[1..], pat);
          assert (t[0] + pat)[..|t[0]| + |short|] == t[0] + short;
          assert [s[0]] + (t[0] + short) <= s;
          PrependAvoids(s[0], t[0] + short, s, pat);
          assert pieces[0] + short == [s[0]] + (t[0] + short);
        } else {
          assert pieces[i] == t[i];
          assert !Occurs(t[i] + short, pat);
        }
      }
    }
  }

  /** The text `ReplaceAll` produces is the original pieces, none of which
      contains the pattern, separated by the replacement: outside the inserted
      replacements no occurrence of the pattern survives, and putting the
      pattern back in their place restores the original text. The cuts are
      the leftmost matches, so this decomposition is the only one. */
  lemma ReplaceAllSegments(s: string, pat: string, rep: string)
    requires |pat| > 0
    ensures var pieces := Split(s, pat);
      && ReplaceAll(s, pat, rep) == Join(pieces, rep)
      && Join(pieces, pat) == s
      && (forall i :: 0 <= i < |pieces| ==> !Occurs(pieces[i], pat))
      && (forall i :: 0 <= i < |pieces| - 1 ==> !Occurs(pieces[i] + pat[..|pat| - 1], pat))
  {
    ReplaceAllJoin(s, pat, rep);
    SplitJoin(s, pat);
    SplitPiecesAvoid(s, pat);
    SplitLeftmost(s, pat);
  }

  lemma {:induction false} JoinLengthMonotone(pieces: seq<string>, a: string, b: string)
    requires |pieces| > 0
    requires |a| <= |b|
    ensures |Join(pieces, a)| <= |Join(pieces, b)|
    ensures |pieces| > 1 && |a| < |b| ==> |Join(pieces, a)| < |Join(pieces, b)|
    decreases |pieces|
  {
    if |pieces| > 1 {
      JoinLengthMonotone(pieces[1..], a, b);
    }
  }

  /** Replacing leaves the text unchanged exactly when the pattern does not
      occur in it or is replaced by itself. */
  lemma ReplaceAllUnchanged(s: string, pat: string, rep: string)
    requires |pat| > 0
    ensures ReplaceAll(s, pat, rep) == s <==> !Occurs(s, pat) || rep == pat
  {
    var pieces := Split(s, pat);
    ReplaceAllSegments(s, pat, rep);
    OccursIffSplits(s, pat);
    if Occurs(s, pat) && rep != pat {
      var r := ReplaceAll(s, pat, rep);
      if |rep| < |pat| {
        JoinLengthMonotone(pieces, rep, pat);
      } else if |pat| < |rep| {
        JoinLengthMonotone(pieces, pat, rep);
      } else {
        var k := |pieces[0]|;
        assert r == pieces[0] + rep + Join(pieces[1..], rep);
        assert s == pieces[0] + pat + Join(pieces[1..], pat);
        assert r[k..k + |rep|] == rep;
        assert s[k..k + |pat|] == pat;
      }
    }
  }

  /** Text without the pattern comes back unchanged, for any pattern. */
  lemma ReplaceAbsent(s: string, pat: string, rep: string)
    requires !Occurs(s, pat)
    ensures Replace(s, pat, rep) == s
  {
    if pat == [] {
      assert OccursAt(s, pat, 0);
    } else {
      ReplaceAllUnchanged(s, pat, rep);
    }
  }

  /** Replacing a pattern by itself is the identity, for any pattern. */
  lemma ReplaceBySelf(s: string, pat: string)
    ensures Replace(s, pat, pat) == s
  {
    if pat != [] {
      ReplaceAllUnchanged(s, pat, pat);
    }
  }
}

=== FILE: wrappers.dfy ===
/** Failure-carrying datatypes shared by the rest of the model: `Option` for
    Rust's `Option` and `Result` for Rust's `Result`. */
module Wrappers {

  /** A value that may be absent. */
  datatype Option<+T> = None | Some(value: T)

  /** A value or an error, as Rust's `Result<T, E>`. */
  datatype Result<+T, +E> = Ok(value: T) | Err(error: E) {

    /** The value, or `default` on an error (Rust's `unwrap_or`). */
    function UnwrapOr(default: T): T {
      match this
      case Ok(v) => v
      case Err(_) => default
    }
  }
}
